=== FILE: README.md ===
# Hardware repair system: PCB annotation and diagnostic bookkeeping in Dafny

This project models the state logic of a browser application for hardware
repair. It has two parts.

- **PCB visual analysis.** The user loads a photo of a circuit board and marks
  damaged regions on it as annotations. The model covers the annotation
  records and the analysis document, plus adding and deleting annotations. It
  also covers mapping a canvas click from screen to image space, picking the
  first circle under the click, choosing which shape the canvas paints for an
  annotation, placing the grid lines, resetting the zoom and the severity
  colour classes.
- **Simulated diagnostics.** The user picks a device, runs its template of
  pass/fail tests, and generates a report. The model covers merging a finished
  run into the results, running a whole template, computing the report's
  verdict and recommendations, and resetting everything when a device is
  chosen.

All operations are pure functions over immutable datatypes:

- `PcbComponent.PcbState` is the PCB component's state.
- `DiagnosticApp.AppState` is the diagnostics screen's state.

Some of the app's inputs are not modelled directly and become parameters:

- JavaScript numbers are `real`. A number is "truthy" when it is present and
  non-zero (`PcbTypes.Truthy`).
- The `Date.now()` annotation id is the `freshId` parameter.
- The two `Math.random()` draws of a simulated test run are an `Outcome`.
- The decoded image's metadata and the report timestamp are parameters.

The Euclidean test `sqrt(dx² + dy²) <= r` is stated without square roots.
Over the reals it is equivalent to `r >= 0 && dx² + dy² <= r²`
(`PcbGeometry.WithinDistance`), which also covers a negative radius.

Modules, one per file:

- `wrappers.dfy`: `Wrappers`, the `Option` type.
- `seqs.dfy`: `Seqs`, order-preserving removal by key and distinct keys.
- `pcb_types.dfy`: `PcbTypes`, the annotation records.
- `pcb_geometry.dfy`: `PcbGeometry`, the click mapping and the hit-test.
- `pcb_render.dfy`: `PcbRender`, shape choice, grid and colours.
- `pcb_component.dfy`: `PcbComponent`, component state and transitions.
- `pcb_properties.dfy`: `PcbProperties`, lemmas across transitions.
- `diagnostics.dfy`: `Diagnostics`, tests, templates, merge and run-all.
- `diagnostic_report.dfy`: `DiagnosticReport`, verdict and recommendations.
- `diagnostic_app.dfy`: `DiagnosticApp`, the diagnostics screen's handlers.

The field the TypeScript type calls `label` is named `caption` here, because `label`
is a reserved word in Dafny.

Behaviour a reader might not expect, modelled as the code has it:

- The screen-to-image mapping subtracts the canvas offset first and then
  divides by the zoom.
- The placeholder caption is `Nova Anotação`.
- Delete clears the selection whenever a photo is loaded, not only when the
  removed annotation was the selected one.
- A draft whose x or y is 0 is treated as missing, so the add does nothing.
- Only damage and component annotations are painted.
- Only the photo is scaled by the zoom. The grid and the shapes are painted in
  unscaled canvas pixels (`PcbComponent.Render`). The click mapping does divide
  by the zoom, so at any zoom other than 1 a click on a painted circle can miss
  it, even on a canvas shown at its pixel size
  (`PcbProperties.PaintedCircleMissedWhenZoomed`).
- The click mapping ignores the canvas's CSS scale. The canvas has the
  photo's pixel size but is styled `maxWidth: 100%`, so a photo wider than
  its column is shown shrunk. Client coordinates are CSS pixels and are
  divided only by the zoom, so on such a photo a click can miss a painted
  circle even at zoom 1.
- The click mapping also ignores the canvas's one-pixel CSS border. The
  bounding rectangle is measured from the border's outer edge, while the
  canvas pixels start one pixel inside it, so every click lands one canvas
  pixel right of and below its target. A click on the painted centre of a
  circle with radius below √2 misses it
  (`PcbProperties.BorderMakesTinyCircleMissed`).
- The severity colours are stylesheet class names such as `bg-red-500`, not
  CSS colours. The canvas ignores them as stroke or fill styles, so the
  fill stays the default black whatever the severity. The outline is black
  too, or the grid's faint white when the grid is shown, because the grid
  sets the stroke style first. Only the badges in the annotation list show
  the colour (`PcbRender.SeverityColorsDistinct`).
- When a photo replaces an earlier one, the decode callback paints with the
  drawing routine captured before the new document takes effect. That first
  paint shows the earlier photo's annotations on the new image, until the
  repaint that follows the state change. `PcbComponent.Render` models only
  the repaint.
- The annotation type does not forbid a radius together with a width and
  height. When both are present, the radius wins for painting and for
  hit-testing.
- A truthy negative radius makes the canvas `arc` call throw. The throw ends
  the `forEach`, so no later annotation is painted in that frame
  (`PcbRender.DrawnShapes`).
- `addAnnotation` is defined but no element of the component's markup calls
  it. The model treats it as an operation all the same.
- "Run all" awaits each run in turn, and the screen stays usable between
  runs. A device chosen in the middle receives the records of the runs still
  to finish (`DiagnosticApp.DeviceSwitchDuringRunAll`).

## Model

| member | source | states |
|---|---|---|
| PcbTypes.ParseKind | src/types/pcb-analysis.ts:3 | an annotation kind is exactly one of damage, component, trace, via: a string is accepted iff it is one of the four names, and then it names that kind |
| PcbTypes.ParseSeverity | src/types/pcb-analysis.ts:10 | a severity is exactly one of low, medium, high, critical: a string is accepted iff it is one of the four names |
| PcbProperties.DefaultDraftGivesPlaceholder | src/components/pcb-analysis/PCBVisualAnalysis.tsx:21-26 | the form starts as a damage annotation of medium severity with empty caption and notes; given coordinates it yields an annotation captioned 'Nova Anotação' with no size |
| PcbRender.RadiusWinsOverSize | src/types/pcb-analysis.ts:4-8 | the type allows a radius and a full width/height on one annotation; with a positive radius such an annotation is painted as a circle only, and with a negative radius painting throws |
| Seqs.Drop | src/components/pcb-analysis/PCBVisualAnalysis.tsx:192 | the id filter keeps exactly the entries whose key is not removed, never grows the list, and returns the list unchanged when nothing matches |
| Seqs.DropAppend | src/components/pcb-analysis/PCBVisualAnalysis.tsx:192 | the filter distributes over concatenation, so survivors keep their original relative order |
| PcbGeometry.ToImage | src/components/pcb-analysis/PCBVisualAnalysis.tsx:142-144 | the image point is the one that scaling by zoom and then shifting by the canvas offset carries back onto the click point (offset subtracted first, then divided by zoom) |
| PcbGeometry.MappingRoundTrip | src/components/pcb-analysis/PCBVisualAnalysis.tsx:142-144 | screen-to-image and image-to-screen mapping are inverse in both directions for any non-zero zoom |
| PcbGeometry.FirstHit | src/components/pcb-analysis/PCBVisualAnalysis.tsx:147-153 | returns the smallest position whose annotation contains the point, and None iff no annotation contains it |
| PcbGeometry.HitTest | src/components/pcb-analysis/PCBVisualAnalysis.tsx:147-154 | the found annotation is in the list, contains the point and has a truthy radius (rectangles never match), and no annotation before its position is hit; none is found iff no annotation is hit |
| PcbGeometry.HitTestIsEarliest | src/components/pcb-analysis/PCBVisualAnalysis.tsx:147-153 | if the annotation at position i is hit, the result is the annotation at a position no later than i |
| PcbRender.DrawShape | src/components/pcb-analysis/PCBVisualAnalysis.tsx:66-76 | an annotation is skipped iff its kind is not damage or component or it has neither a truthy radius nor a truthy width and height; painting throws iff it is drawable with a negative radius; otherwise a truthy (then positive) radius gives a circle at the anchor, and without one a rectangle with the anchor as its corner |
| PcbRender.DrawnShapes | src/components/pcb-analysis/PCBVisualAnalysis.tsx:61-77 | every painted shape is the shape of some annotation in the list, never more shapes than annotations, and nothing is painted when no annotation is drawable |
| PcbRender.DrawnShapesComplete | src/components/pcb-analysis/PCBVisualAnalysis.tsx:61-77 | every drawable annotation gets its shape painted, provided no annotation before it throws |
| PcbRender.DrawnShapesAppend | src/components/pcb-analysis/PCBVisualAnalysis.tsx:61-77 | when no annotation of the first part throws, painting a concatenation paints the first part then the second, in list order |
| PcbRender.DrawnShapesAfterThrow | src/components/pcb-analysis/PCBVisualAnalysis.tsx:61-77 | once an annotation throws while being painted, nothing appended after it is painted |
| PcbRender.GridPositions | src/components/pcb-analysis/PCBVisualAnalysis.tsx:42-55 | grid lines sit at 0, 50, 100, … each within the extent, and the next multiple of 50 lies beyond it |
| PcbRender.GridLines | src/components/pcb-analysis/PCBVisualAnalysis.tsx:43-48 | the loop stepping x by 50 while x <= extent produces exactly those positions, extent div 50 + 1 of them |
| PcbRender.SeverityColorsDistinct | src/components/pcb-analysis/PCBVisualAnalysis.tsx:31-36 | the four severities map to four different colour classes, which the list's badges show |
| PcbComponent.LoadImage | src/components/pcb-analysis/PCBVisualAnalysis.tsx:105-131 | a non-image media type changes nothing; an image replaces the document by one with the given URL and metadata and no annotations; view state, selection and draft are untouched |
| PcbComponent.NewAnnotation | src/components/pcb-analysis/PCBVisualAnalysis.tsx:161-172 | coordinates and width/height/radius are copied verbatim; kind, caption, severity and notes fall back to damage, 'Nova Anotação', medium and '' when absent or empty |
| PcbComponent.AddAnnotation | src/components/pcb-analysis/PCBVisualAnalysis.tsx:158-185 | a no-op without a document or with a falsy (absent or 0) x or y; otherwise the old list plus exactly one new annotation at the end, image and metadata unchanged, draft reset to its defaults, nothing else changed |
| PcbComponent.DeleteAnnotation | src/components/pcb-analysis/PCBVisualAnalysis.tsx:187-195 | without a document nothing changes; otherwise the list keeps exactly the entries with a different id, in order, the selection is cleared unconditionally, and nothing else changes |
| PcbComponent.HandleCanvasClick | src/components/pcb-analysis/PCBVisualAnalysis.tsx:139-156 | only with a document and the select tool: the selection becomes the first annotation of the list that the mapped point hits, or null iff none is hit; no other field changes |
| PcbComponent.ResetZoom | src/components/pcb-analysis/PCBVisualAnalysis.tsx:214-216 | zoom becomes 1 and nothing else changes |
| PcbComponent.Render | src/components/pcb-analysis/PCBVisualAnalysis.tsx:80-103 | a frame exists iff a document is loaded; only the image is scaled by zoom; grid lines exist iff the grid is on; shapes are the painted annotations (stopping at the first that throws) iff annotations are shown, else none |
| PcbProperties.AddKeepsIdsDistinct | src/components/pcb-analysis/PCBVisualAnalysis.tsx:161-177 | adding with an id not already in the list keeps annotation ids unique |
| PcbProperties.DeleteKeepsIdsDistinct | src/components/pcb-analysis/PCBVisualAnalysis.tsx:190-193 | deleting keeps annotation ids unique |
| PcbProperties.DeleteAbsentIdKeepsList | src/components/pcb-analysis/PCBVisualAnalysis.tsx:192 | deleting an id that no annotation has leaves the list unchanged |
| PcbProperties.DeleteUndoesAdd | src/components/pcb-analysis/PCBVisualAnalysis.tsx:174-192 | deleting the annotation just added under a fresh id restores the previous list |
| PcbProperties.AddPaintsNewShapeLast | src/components/pcb-analysis/PCBVisualAnalysis.tsx:174-177 | after an add the canvas paints the earlier shapes followed by the new annotation's shape, if it has one; if an earlier annotation already throws, the painted shapes stay as they were |
| PcbProperties.ClickIsIdempotent | src/components/pcb-analysis/PCBVisualAnalysis.tsx:146-155 | clicking twice at the same point gives the same state as clicking once |
| PcbProperties.ResetZoomRealignsClicks | src/components/pcb-analysis/PCBVisualAnalysis.tsx:139-156 | after a zoom reset, with the canvas shown at its pixel size and its pixels starting `border` inside its bounding rectangle, a click on the painted centre of a circle maps to that centre shifted by `border` on both axes and selects what the hit-test finds there; when the radius reaches that shift, this is the first annotation hit, at or before that circle's position |
| PcbProperties.BorderMakesTinyCircleMissed | src/components/pcb-analysis/PCBVisualAnalysis.tsx:139-156 | with the one-pixel border, a click on the painted centre of a radius-1 circle selects nothing even at zoom 1 |
| PcbProperties.MountStateIsInert | src/components/pcb-analysis/PCBVisualAnalysis.tsx:13-26 | at mount no photo is loaded, zoom is 1, annotations are shown, the grid is hidden, the select tool is active and nothing is selected; nothing is painted, and adding, deleting and clicking change nothing |
| PcbProperties.SecondAddIsNoOp | src/components/pcb-analysis/PCBVisualAnalysis.tsx:179-184 | a successful add resets the form to its mount-time value, so a second add without editing the form does nothing |
| PcbProperties.CircleAndRectangleScenario | src/components/pcb-analysis/PCBVisualAnalysis.tsx:139-185 | after adding a radius-20 circle at (100,100) then a 50×30 rectangle at (300,300), the list holds both in order with their ids and severities; a click at (105,103) selects the circle, one at (400,400) selects nothing |
| PcbProperties.PaintedCircleMissedWhenZoomed | src/components/pcb-analysis/PCBVisualAnalysis.tsx:90-101 | with the canvas shown at its pixel size: at zoom 2 the circle is painted unscaled at (100,100), so at client (101,101) inside the one-pixel border, yet a click there selects nothing, while at zoom 1 it selects the circle |
| Diagnostics.DeviceName | src/App.tsx:58-67 | a name is found iff the catalogue has a device with that id, and it is that device's name |
| Diagnostics.TemplatesHaveDistinctIds | src/App.tsx:69-86 | no template contains two tests with the same id |
| Diagnostics.Record | src/App.tsx:95-99 | the recorded result keeps the test's id, name and description; its status is passed or failed, passed iff the first draw passes; its text comes from the second draw |
| Diagnostics.MergeResult | src/App.tsx:101 | the merged results end with the new record; no earlier entry has its id; the earlier entries are exactly the old ones with a different id, in order |
| Diagnostics.MergeKeepsInvariants | src/App.tsx:101 | merging keeps result ids unique and every entry passed or failed |
| Diagnostics.RunAll | src/App.tsx:110-112 | running tests one after another ends with the last test's record and keeps every result a finished run; with no tests the results are unchanged |
| Diagnostics.RunAllKeepsIds | src/App.tsx:110-112 | after running tests one after another, every earlier result id and every test id still has an entry |
| Diagnostics.MergeKeepsEntries | src/App.tsx:101 | merging keeps an entry for every earlier id and for the merged test, and adds only a finished run |
| Diagnostics.RunAllShape | src/App.tsx:106-113 | running a template of distinct tests in order leaves the earlier results whose ids it does not run, in order, followed by one record per test in template order |
| Diagnostics.RunAllKeepsInvariants | src/App.tsx:106-113 | running a sequence of tests keeps result ids unique and every entry passed or failed |
| DiagnosticReport.VerdictOf | src/App.tsx:120 | the verdict is APROVADO iff every result passed (so an empty list is approved) |
| DiagnosticReport.FailedRecommendations | src/App.tsx:133-135 | every recommendation names a failed result with its description, and the list is empty iff no result failed |
| DiagnosticReport.FailedRecommendationsComplete | src/App.tsx:133-135 | every failed result gets a recommendation with its name and description |
| DiagnosticReport.FailedRecommendationsAppend | src/App.tsx:133-135 | recommendations follow the order of the results |
| DiagnosticReport.TestLineFor | src/App.tsx:124 | a test line carries the result's name, a pass mark iff it passed, and its result text, empty when there is none |
| DiagnosticReport.ComponentLineFor | src/App.tsx:128-130 | a component line carries the component's name and location, and reads as OK iff its status is ok; unknown reads as a fault |
| DiagnosticReport.BuildReport | src/App.tsx:115-136 | the report carries the timestamp; the device name falls back to 'Não especificado'; the verdict is approved iff all results passed; one test line per result with its name, pass mark and result text (empty when absent); one line per component; the placeholder appears iff nothing failed, otherwise the failed results' recommendations in order |
| DiagnosticReport.StatusLineFollowsResults | src/App.tsx:120 | the status line reads APROVADO iff every result passed and REPARO NECESSÁRIO iff some result did not |
| DiagnosticReport.VerdictMatchesRecommendations | src/App.tsx:120-135 | when every result is passed or failed, the report asks for repair iff it lists recommendations |
| DiagnosticApp.MountStateIsIdle | src/App.tsx:51-56 | on mount no device is chosen and results, components and report are empty; the results are well formed and "run all" changes nothing |
| DiagnosticApp.SelectDevice | src/App.tsx:197-201 | choosing a device sets the selection and empties both the results and the report |
| DiagnosticApp.RunTest | src/App.tsx:88-104 | after a run the results hold exactly one entry with the test's id, placed last, and the others keep their relative order |
| DiagnosticApp.RunAllTests | src/App.tsx:106-113 | nothing happens without a selected device; a device without a template runs no test; otherwise the untouched old results are followed by the template's records in order |
| DiagnosticApp.DeviceSwitchDuringRunAll | src/App.tsx:88-112 | choosing the television while a laptop run is awaited, then letting that run finish, leaves the television selected with only the laptop's display record, an id no television test has |
| DiagnosticApp.GenerateReport | src/App.tsx:115-139 | the stored report is the one built from the current device, results and components; its verdict and recommendation placeholder follow the current results; nothing else changes |
| DiagnosticApp.HandlersKeepResultsWellFormed | src/App.tsx:101 | selecting a device, running one test, running all tests and generating the report all keep result ids unique and every result passed or failed |
| DiagnosticApp.LaptopRunScenario | src/App.tsx:70-75 | choosing the laptop and running all tests yields power, display, keyboard and ports in that order, each passed iff its draw passes |

## Left out

- Image decoding is not modelled. This covers the `FileReader`/`Image` decoding, the resolution text, the megabyte size text (a float-to-string conversion) and the upper-cased format. `LoadImage` takes the finished metadata as a parameter.
- A decode callback that finishes after a newer photo was chosen needs no separate model. The code has no guard against it, so it is simply a later `LoadImage` with the older photo's data, which then replaces the newer document.
- Exporting the analysis as JSON and downloading the report are not modelled. Both are Blob/URL/anchor plumbing and JSON serialisation with no state effect.
- Canvas painting is not modelled: `clearRect`, `drawImage`, strokes, fills and their colour strings. Only the shape-or-skip decision, the grid positions and the severity colour classes are modelled.
- The zoom slider and its 0.1–3 range are not modelled. The range is a property of the widget, and the code does no clamping.
- The show-grid and show-annotations toggles and the tool buttons are not modelled as operations. They are plain setters; their values are fields of `PcbState`.
- HandleCanvasClick: requires a non-zero zoom. Division by zero giving Infinity or NaN is not modelled. The zoom is never 0 in the app: it starts at 1, the slider's minimum is 0.1, and the reset sets 1.
- The null check on the canvas element is not modelled. The canvas is on screen whenever a photo is loaded.
- NaN is not modelled, because it is not a `real`. In JavaScript it is falsy and compares false.
- The form has no input that sets the draft's fields, so no draft update is modelled. The lemmas set the draft directly.
- The `isDrawing` and `startPoint` state are not modelled, because they are declared and never used.
- The `isRunning` and `currentTest` flags are not modelled. They are busy indicators held only during the simulated two-second wait, which is abstracted away along with `Math.random`.
- The report's text layout and the `pt-BR` date formatting are not modelled. The report is kept as a record of its parts, and the timestamp is a parameter.
- ResetZoomRealignsClicks: assumes the canvas is shown at its pixel size, one client pixel per canvas pixel. For a photo wider than its column the canvas is shrunk by its style and the painted centre sits elsewhere in client coordinates; that case is not covered. The CSS border is a parameter, and selection is promised only for circles whose radius reaches the border's shift, at least √2 times the border width.
- PaintedCircleMissedWhenZoomed: assumes the canvas is shown at its pixel size. Its zoom-1 half, the click selecting the circle, does not hold for a canvas shrunk by its style.
- The `components` list is never filled in the app. It is modelled only as an input to the report.
- RunAllTests: the model runs the whole template in one step. The app awaits each run in turn, so a device choice or a report can come between two runs; `DeviceSwitchDuringRunAll` shows the effect of one such interleaving, and the others are not enumerated.
- The application bootstrap and the offline asset cache of the service worker are not modelled. Neither has state logic.

=== FILE: diagnostic_app.dfy ===
/** The state of the diagnostics screen and its handlers: choosing a device,
    running one test or all tests of the device, and generating the report.
    The random draws and the two-second wait of a simulated run are replaced
    by explicit `Outcome` values. */
module DiagnosticApp {
  import opened Wrappers
  import opened Seqs
  import opened Diagnostics
  import opened DiagnosticReport

  /** `selectedDevice` is "" while no device is chosen; `report` is None
      while no report has been generated. */
  datatype AppState = AppState(
    selectedDevice: string,
    results: seq<Test>,
    components: seq<Component>,
    report: Option<Report>)

  const Initial: AppState := AppState("", [], [], None)

  /** The results hold at most one entry per test id and only finished runs. */
  ghost predicate ResultsWellFormed(s: AppState)
  {
    DistinctKeys(s.results, TestId) && AllRecorded(s.results)
  }

  /** On mount no device is chosen and there are no results, components or
      report; the results are trivially well formed, and "run all" does
      nothing until a device is chosen. */
  lemma MountStateIsIdle(outcomes: seq<Outcome>)
    ensures Initial.selectedDevice == "" && Initial.results == []
    ensures Initial.components == [] && Initial.report.None?
    ensures ResultsWellFormed(Initial)
    ensures RunAllTests(Initial, outcomes) == Initial
  {
  }

  /** Choosing a device starts over: its id becomes the selection and both
      the results and the report are emptied. */
  function SelectDevice(s: AppState, deviceId: string): (r: AppState)
    ensures r.selectedDevice == deviceId
    ensures r.results == [] && r.report.None?
    ensures r.components == s.components
  {
    s.(selectedDevice := deviceId, results := [], report := None)
  }

  /** One finished run of `t`: the results afterwards hold exactly one entry
      with `t`'s id, placed last; the others keep their relative order. */
  function RunTest(s: AppState, t: Test, o: Outcome): (r: AppState)
    ensures |r.results| > 0 && r.results[|r.results| - 1] == Record(t, o)
    ensures forall i :: 0 <= i < |r.results| - 1 ==> r.results[i].id != t.id
    ensures r.results[..|r.results| - 1] == Drop(s.results, TestId, {t.id})
    ensures r.(results := s.results) == s
  {
    s.(results := MergeResult(s.results, t, o))
  }

  /** Runs every test of the selected device in template order; without a
      selected device nothing happens, and a device without a template runs
      no test. The outcomes are the draws of the successive runs. */
  function RunAllTests(s: AppState, outcomes: seq<Outcome>): (r: AppState)
    requires |outcomes| >= |TestsFor(s.selectedDevice)|
    ensures s.selectedDevice == "" ==> r == s
    ensures TestsFor(s.selectedDevice) == [] ==> r == s
    ensures s.selectedDevice != "" ==>
      var tests := TestsFor(s.selectedDevice);
      r.results == Drop(s.results, TestId, IdSet(tests)) + RecordAll(tests, outcomes)
    ensures r.(results := s.results) == s
  {
    if s.selectedDevice == "" then s
    else
      var tests := TestsFor(s.selectedDevice);
      TemplatesHaveDistinctIds(s.selectedDevice);
      RunAllShape(s.results, tests, outcomes);
      assert tests == [] ==> Drop(s.results, TestId, {}) == s.results;
      s.(results := RunAll(s.results, tests, outcomes))
  }

  /** Stores the report built from the current device, results and
      components. */
  function GenerateReport(s: AppState, timestamp: string): (r: AppState)
    ensures r.report == Some(BuildReport(s.selectedDevice, s.results, s.components, timestamp))
    ensures r.report.value.verdict == Approved <==> forall t :: t in s.results ==> t.status == Passed
    ensures r.report.value.recommendations.NothingNeeded? <==> forall t :: t in s.results ==> t.status != Failed
    ensures r.(report := s.report) == s
  {
    s.(report := Some(BuildReport(s.selectedDevice, s.results, s.components, timestamp)))
  }

  /** Every handler keeps the results well formed. */
  lemma HandlersKeepResultsWellFormed(s: AppState, deviceId: string, t: Test, o: Outcome, outcomes: seq<Outcome>, timestamp: string)
    requires ResultsWellFormed(s)
    requires |outcomes| >= |TestsFor(s.selectedDevice)|
    ensures ResultsWellFormed(SelectDevice(s, deviceId))
    ensures ResultsWellFormed(RunTest(s, t, o))
    ensures ResultsWellFormed(RunAllTests(s, outcomes))
    ensures ResultsWellFormed(GenerateReport(s, timestamp))
  {
    MergeKeepsInvariants(s.results, t, o);
    RunAllKeepsInvariants(s.results, TestsFor(s.selectedDevice), outcomes);
  }

  /** The runs of "run all" finish one by one, and the screen stays usable
      in between. Choosing the television while the laptop's display test is
      still running empties the results, and when that run finishes its
      record lands in the television's results although the television has
      no such test. */
  lemma DeviceSwitchDuringRunAll(s: AppState, o: Outcome)
    ensures var display := TestsFor("laptop")[1];
      var r := RunTest(SelectDevice(s, "tv"), display, o);
      && r.selectedDevice == "tv"
      && r.results == [Record(display, o)]
      && r.results[0].id == "display"
      && forall t :: t in TestsFor("tv") ==> t.id != r.results[0].id
  {
    var display := TestsFor("laptop")[1];
    assert Drop([], TestId, {display.id}) == [];
  }

  /** Running all tests of a laptop right after choosing it yields the four
      laptop tests in template order, with the first draw of each outcome
      as its verdict. */
  lemma LaptopRunScenario(s: AppState, outcomes: seq<Outcome>)
    requires |outcomes| == 4
    ensures var r := RunAllTests(SelectDevice(s, "laptop"), outcomes);
      && |r.results| == 4
      && r.results[0].id == "power" && r.results[1].id == "display"
      && r.results[2].id == "keyboard" && r.results[3].id == "ports"
      && forall i :: 0 <= i < 4 ==> (r.results[i].status == Passed <==> outcomes[i].passes)
  {
    var tests := TestsFor("laptop");
    var chosen := SelectDevice(s, "laptop");
    var r := RunAllTests(chosen, outcomes);
    assert Drop(chosen.results, TestId, IdSet(tests)) == [];
    assert r.results == RecordAll(tests, outcomes);
    assert tests[0].id == "power" && tests[1].id == "display";
    assert tests[2].id == "keyboard" && tests[3].id == "ports";
  }
}

=== FILE: diagnostic_report.dfy ===
/** The diagnostic report: device name, overall verdict, one line per test
    result and per checked component, and the repair recommendations. The
    report is kept as a record of these parts; laying them out as text is
    not modelled. */
module DiagnosticReport {
  import opened Wrappers
  import opened Diagnostics

  datatype Verdict = Approved | RepairNeeded

  datatype ComponentStatus = Ok | Faulty | Unknown

  /** A board component checked during diagnosis. */
  datatype Component = Component(
    id: string, name: string, kind: string, value: Option<string>, location: string, status: ComponentStatus)

  datatype TestLine = TestLine(name: string, passed: bool, result: string)

  datatype ComponentLine = ComponentLine(name: string, location: string, ok: bool)

  datatype Recommendation = Recommendation(name: string, description: string)

  /** The recommendations part: the placeholder sentence "Nenhuma
      recomendação necessária" when nothing failed, otherwise the failed
      tests. */
  datatype Recommendations = NothingNeeded | Repairs(items: seq<Recommendation>)

  datatype Report = Report(
    timestamp: string,
    deviceName: string,
    verdict: Verdict,
    tests: seq<TestLine>,
    components: seq<ComponentLine>,
    recommendations: Recommendations)

  const Unspecified: string := "Não especificado"

  /** The status text the report prints for a verdict. */
  function VerdictLabel(v: Verdict): string
  {
    match v
    case Approved => "APROVADO"
    case RepairNeeded => "REPARO NECESSÁRIO"
  }

  /** Approved exactly when every result passed; in particular an empty
      result list is approved. */
  function VerdictOf(results: seq<Test>): (v: Verdict)
    ensures v == Approved <==> forall i :: 0 <= i < |results| ==> results[i].status == Passed
  {
    if |results| == 0 then Approved
    else if results[0].status != Passed then RepairNeeded
    else VerdictOf(results[1..])
  }

  function RecommendationFor(t: Test): Recommendation
  {
    Recommendation(t.name, t.description)
  }

  /** One recommendation per failed result, naming the test and repeating
      its description. */
  function FailedRecommendations(results: seq<Test>): (r: seq<Recommendation>)
    ensures |r| <= |results|
    ensures |r| == 0 <==> forall i :: 0 <= i < |results| ==> results[i].status != Failed
    ensures forall x :: x in r ==> exists t :: t in results && t.status == Failed && x == RecommendationFor(t)
  {
    if |results| == 0 then []
    else if results[0].status == Failed then [RecommendationFor(results[0])] + FailedRecommendations(results[1..])
    else FailedRecommendations(results[1..])
  }

  /** Every failed result gets its recommendation. */
  lemma {:induction false} FailedRecommendationsComplete(results: seq<Test>, t: Test)
    requires t in results && t.status == Failed
    ensures RecommendationFor(t) in FailedRecommendations(results)
  {
    if results[0] != t {
      FailedRecommendationsComplete(results[1..], t);
    }
  }

  /** Recommendations follow the order of the results. */
  lemma {:induction false} FailedRecommendationsAppend(a: seq<Test>, b: seq<Test>)
    ensures FailedRecommendations(a + b) == FailedRecommendations(a) + FailedRecommendations(b)
  {
    if |a| == 0 {
      assert a + b == b;
    } else {
      assert (a + b)[1..] == a[1..] + b;
      FailedRecommendationsAppend(a[1..], b);
    }
  }

  /** A result's report line: its name, whether it passed, and its result
      text, empty when the run left none. */
  function TestLineFor(t: Test): (l: TestLine)
    ensures l.name == t.name
    ensures l.passed <==> t.status == Passed
    ensures t.result.Some? ==> l.result == t.result.value
    ensures t.result.None? ==> l.result == ""
  {
    TestLine(t.name, t.status == Passed, t.result.GetOr(""))
  }

  /** A component reads as OK only with status ok; unknown reads as a fault. */
  function ComponentLineFor(c: Component): (l: ComponentLine)
    ensures l.name == c.name && l.location == c.location
    ensures l.ok <==> c.status == Ok
  {
    ComponentLine(c.name, c.location, c.status == Ok)
  }

  /** The report for the selected device, its results and components at the
      time `timestamp`. */
  function BuildReport(deviceId: string, results: seq<Test>, components: seq<Component>, timestamp: string): (rep: Report)
    ensures rep.timestamp == timestamp
    ensures rep.deviceName == DeviceName(deviceId).GetOr(Unspecified)
    ensures rep.verdict == Approved <==> forall t :: t in results ==> t.status == Passed
    ensures |rep.tests| == |results|
    ensures forall i :: 0 <= i < |results| ==>
      && rep.tests[i].name == results[i].name
      && (rep.tests[i].passed <==> results[i].status == Passed)
      && rep.tests[i].result == results[i].result.GetOr("")
    ensures |rep.components| == |components|
    ensures forall i :: 0 <= i < |components| ==> rep.components[i] == ComponentLineFor(components[i])
    ensures rep.recommendations.NothingNeeded? <==> forall t :: t in results ==> t.status != Failed
    ensures rep.recommendations.Repairs? ==>
      |rep.recommendations.items| > 0 && rep.recommendations.items == FailedRecommendations(results)
  {
    var failed := FailedRecommendations(results);
    Report(
      timestamp,
      DeviceName(deviceId).GetOr(Unspecified),
      VerdictOf(results),
      seq(|results|, i requires 0 <= i < |results| => TestLineFor(results[i])),
      seq(|components|, i requires 0 <= i < |components| => ComponentLineFor(components[i])),
      if |failed| == 0 then NothingNeeded else Repairs(failed))
  }

  /** The report's status line reads APROVADO exactly when every result
      passed, and REPARO NECESSÁRIO otherwise. */
  lemma StatusLineFollowsResults(deviceId: string, results: seq<Test>, components: seq<Component>, timestamp: string)
    ensures var shown := VerdictLabel(BuildReport(deviceId, results, components, timestamp).verdict);
      && (shown == "APROVADO" <==> forall t :: t in results ==> t.status == Passed)
      && (shown == "REPARO NECESSÁRIO" <==> exists t :: t in results && t.status != Passed)
  {
  }

  /** When every result is a finished run, the report asks for repair exactly
      when it lists at least one recommendation. */
  lemma VerdictMatchesRecommendations(deviceId: string, results: seq<Test>, components: seq<Component>, timestamp: string)
    requires AllRecorded(results)
    ensures BuildReport(deviceId, results, components, timestamp).verdict == RepairNeeded <==>
      BuildReport(deviceId, results, components, timestamp).recommendations.Repairs?
  {
  }
}

=== FILE: diagnostics.dfy ===
/** The simulated hardware tests: the device catalogue, the test templates
    of each device, and how a finished test is merged into the results. The
    two coin flips of a simulated run are the `Outcome` parameter. */
module Diagnostics {
  import opened Wrappers
  import opened Seqs

  datatype TestStatus = Pending | Running | Passed | Failed

  datatype Test = Test(id: string, name: string, description: string, status: TestStatus, result: Option<string>)

  /** The two independent random draws of one simulated run: whether the
      test passes, and whether the result text reports the component as OK. */
  datatype Outcome = Outcome(passes: bool, componentOk: bool)

  datatype Device = Device(id: string, name: string)

  const ResultOk: string := "Componente OK"
  const ResultFault: string := "Falha detectada"

  function TestId(t: Test): string { t.id }

  /** A result fresh from a run: passed or failed, never pending or running. */
  predicate IsRecorded(t: Test)
  {
    t.status == Passed || t.status == Failed
  }

  /** Every entry of the results is a finished run. */
  predicate AllRecorded(results: seq<Test>)
  {
    forall t :: t in results ==> IsRecorded(t)
  }

  const Devices: seq<Device> := [
    Device("laptop", "Notebook"),
    Device("tv", "Televisor"),
    Device("printer", "Impressora"),
    Device("ssd", "SSD"),
    Device("psu", "Fonte de Alimentação"),
    Device("monitor", "Monitor"),
    Device("router", "Roteador"),
    Device("automotive", "Sistema Automotivo")
  ]

  /** The name of the first catalogue device with the given id. */
  function DeviceName(id: string): (r: Option<string>)
    ensures r.Some? <==> exists d :: d in Devices && d.id == id
    ensures r.Some? ==> Device(id, r.value) in Devices
  {
    FindDevice(Devices, id)
  }

  function FindDevice(ds: seq<Device>, id: string): (r: Option<string>)
    ensures r.Some? <==> exists d :: d in ds && d.id == id
    ensures r.Some? ==> Device(id, r.value) in ds
  {
    if |ds| == 0 then None
    else if ds[0].id == id then Some(ds[0].name)
    else FindDevice(ds[1..], id)
  }

  function PendingTest(id: string, name: string, description: string): Test
  {
    Test(id, name, description, Pending, None)
  }

  /** The tests run for a device; a device without a template has none. */
  function TestsFor(deviceId: string): seq<Test>
  {
    if deviceId == "laptop" then [
      PendingTest("power", "Teste de Alimentação", "Verifica fonte e bateria"),
      PendingTest("display", "Teste de Display", "Verifica LCD/LED"),
      PendingTest("keyboard", "Teste de Teclado", "Verifica todas as teclas"),
      PendingTest("ports", "Teste de Portas", "Verifica USB, HDMI, etc")
    ]
    else if deviceId == "tv" then [
      PendingTest("backlight", "Teste de Backlight", "Verifica iluminação"),
      PendingTest("tcon", "Teste T-CON", "Verifica placa de controle"),
      PendingTest("power", "Teste de Alimentação", "Verifica fonte interna")
    ]
    else if deviceId == "psu" then [
      PendingTest("voltage", "Teste de Tensão", "Verifica saídas +12V, +5V, +3.3V"),
      PendingTest("ripple", "Teste de Ripple", "Verifica estabilidade"),
      PendingTest("protection", "Teste de Proteção", "Verifica circuitos de segurança")
    ]
    else []
  }

  /** Within each template no two tests share an id. */
  lemma TemplatesHaveDistinctIds(deviceId: string)
    ensures DistinctKeys(TestsFor(deviceId), TestId)
  {
  }

  /** The result a run records for a test: the test's id, name and
      description, the first draw's verdict, and the second draw's text. */
  function Record(t: Test, o: Outcome): (r: Test)
    ensures r.id == t.id && r.name == t.name && r.description == t.description
    ensures IsRecorded(r)
    ensures r.status == Passed <==> o.passes
    ensures r.result == Some(if o.componentOk then ResultOk else ResultFault)
  {
    t.(status := if o.passes then Passed else Failed,
       result := Some(if o.componentOk then ResultOk else ResultFault))
  }

  /** Merges a finished run into the results: any earlier entry with the
      same id is removed and the new one goes last. */
  function MergeResult(results: seq<Test>, t: Test, o: Outcome): (r: seq<Test>)
    ensures |r| > 0 && r[|r| - 1] == Record(t, o)
    ensures forall i :: 0 <= i < |r| - 1 ==> r[i].id != t.id
    ensures r[..|r| - 1] == Drop(results, TestId, {t.id})
    ensures forall x :: x in r[..|r| - 1] <==> x in results && x.id != t.id
  {
    var r := Drop(results, TestId, {t.id}) + [Record(t, o)];
    assert r[..|r| - 1] == Drop(results, TestId, {t.id});
    assert forall i :: 0 <= i < |r| - 1 ==> r[i] in Drop(results, TestId, {t.id});
    r
  }

  /** Merging keeps ids unique and keeps every entry a finished run. */
  lemma MergeKeepsInvariants(results: seq<Test>, t: Test, o: Outcome)
    requires DistinctKeys(results, TestId)
    requires AllRecorded(results)
    ensures DistinctKeys(MergeResult(results, t, o), TestId)
    ensures AllRecorded(MergeResult(results, t, o))
  {
    var kept := Drop(results, TestId, {t.id});
    DropKeepsDistinct(results, TestId, {t.id});
    AppendFreshKeepsDistinct(kept, Record(t, o), TestId);
    assert MergeResult(results, t, o) == kept + [Record(t, o)];
  }

  /** Merging keeps an entry for every earlier id and for the merged test,
      and adds only a finished run. */
  lemma MergeKeepsEntries(results: seq<Test>, t: Test, o: Outcome)
    ensures forall x :: x in results ==> x.id in IdSet(MergeResult(results, t, o))
    ensures t.id in IdSet(MergeResult(results, t, o))
    ensures AllRecorded(results) ==> AllRecorded(MergeResult(results, t, o))
  {
    var merged := MergeResult(results, t, o);
    assert merged == merged[..|merged| - 1] + [merged[|merged| - 1]];
    forall x | x in results
      ensures x.id in IdSet(merged)
    {
      if x.id != t.id {
        assert x in merged[..|merged| - 1];
      }
    }
  }

  /** The ids of a list of tests. */
  function IdSet(tests: seq<Test>): (ids: set<string>)
    ensures forall t :: t in tests ==> t.id in ids
  {
    if |tests| == 0 then {} else {tests[0].id} + IdSet(tests[1..])
  }

  /** The results of running the tests one after another, the i-th with the
      i-th outcome. */
  function RunAll(results: seq<Test>, tests: seq<Test>, outcomes: seq<Outcome>): (r: seq<Test>)
    requires |outcomes| >= |tests|
    ensures |tests| == 0 ==> r == results
    ensures |tests| > 0 ==> |r| > 0 && r[|r| - 1] == Record(tests[|tests| - 1], outcomes[|tests| - 1])
    ensures AllRecorded(results) ==> AllRecorded(r)
    decreases |tests|
  {
    if |tests| == 0 then results
    else
      var merged := MergeResult(results, tests[0], outcomes[0]);
      MergeKeepsEntries(results, tests[0], outcomes[0]);
      RunAll(merged, tests[1..], outcomes[1..])
  }

  /** Running tests leaves an entry for every earlier result id and for
      every test run. */
  lemma {:induction false} RunAllKeepsIds(results: seq<Test>, tests: seq<Test>, outcomes: seq<Outcome>)
    requires |outcomes| >= |tests|
    ensures forall x :: x in results ==> x.id in IdSet(RunAll(results, tests, outcomes))
    ensures forall t :: t in tests ==> t.id in IdSet(RunAll(results, tests, outcomes))
    decreases |tests|
  {
    if |tests| > 0 {
      var merged := MergeResult(results, tests[0], outcomes[0]);
      MergeKeepsEntries(results, tests[0], outcomes[0]);
      RunAllKeepsIds(merged, tests[1..], outcomes[1..]);
      IdSetMembers(merged, tests[0].id);
      assert forall t :: t in tests ==> t == tests[0] || t in tests[1..];
    }
  }

  /** The records of the tests under their outcomes, in test order. */
  function RecordAll(tests: seq<Test>, outcomes: seq<Outcome>): (r: seq<Test>)
    requires |outcomes| >= |tests|
    ensures |r| == |tests|
    ensures forall i :: 0 <= i < |tests| ==> r[i] == Record(tests[i], outcomes[i])
  {
    if |tests| == 0 then [] else [Record(tests[0], outcomes[0])] + RecordAll(tests[1..], outcomes[1..])
  }

  /** Running tests with distinct ids leaves the earlier results not
      re-run, in their order, followed by one record per test in test order. */
  lemma {:induction false} RunAllShape(results: seq<Test>, tests: seq<Test>, outcomes: seq<Outcome>)
    requires |outcomes| >= |tests|
    requires DistinctKeys(tests, TestId)
    ensures RunAll(results, tests, outcomes) == Drop(results, TestId, IdSet(tests)) + RecordAll(tests, outcomes)
    decreases |tests|
  {
    if |tests| == 0 {
      assert Drop(results, TestId, {}) == results;
    } else {
      var t, rest, more := tests[0], tests[1..], outcomes[1..];
      var rec := Record(t, outcomes[0]);
      var kept := Drop(results, TestId, {t.id});
      assert tests == [t] + rest;
      DistinctKeysCons(t, rest, TestId);
      IdSetMembers(rest, t.id);
      DropSingleton(rec, TestId, IdSet(rest));
      DropAppend(kept, [rec], TestId, IdSet(rest));
      DropDrop(results, TestId, {t.id}, IdSet(rest));
      RunAllShape(kept + [rec], rest, more);
      calc {
        RunAll(results, tests, outcomes);
        RunAll(kept + [rec], rest, more);
        Drop(kept + [rec], TestId, IdSet(rest)) + RecordAll(rest, more);
        Drop(kept, TestId, IdSet(rest)) + [rec] + RecordAll(rest, more);
        { assert IdSet(tests) == {t.id} + IdSet(rest); }
        Drop(results, TestId, IdSet(tests)) + [rec] + RecordAll(rest, more);
        { ConcatAssoc(Drop(results, TestId, IdSet(tests)), [rec], RecordAll(rest, more)); }
        Drop(results, TestId, IdSet(tests)) + ([rec] + RecordAll(rest, more));
        Drop(results, TestId, IdSet(tests)) + RecordAll(tests, outcomes);
      }
    }
  }

  /** An id is in IdSet exactly when some test carries it. */
  lemma {:induction false} IdSetMembers(tests: seq<Test>, id: string)
    ensures id in IdSet(tests) <==> exists t :: t in tests && t.id == id
  {
    if |tests| > 0 {
      IdSetMembers(tests[1..], id);
      assert tests == [tests[0]] + tests[1..];
    }
  }

  /** Running keeps ids unique and every entry a finished run. */
  lemma {:induction false} RunAllKeepsInvariants(results: seq<Test>, tests: seq<Test>, outcomes: seq<Outcome>)
    requires |outcomes| >= |tests|
    requires DistinctKeys(results, TestId)
    requires AllRecorded(results)
    ensures DistinctKeys(RunAll(results, tests, outcomes), TestId)
    ensures AllRecorded(RunAll(results, tests, outcomes))
    decreases |tests|
  {
    if |tests| > 0 {
      MergeKeepsInvariants(results, tests[0], outcomes[0]);
      RunAllKeepsInvariants(MergeResult(results, tests[0], outcomes[0]), tests[1..], outcomes[1..]);
    }
  }
}

=== FILE: pcb_component.dfy ===
/** The state of the PCB visual-analysis component and its transitions:
    loading a photo, adding and deleting annotations, clicking on the canvas,
    resetting the zoom, and the frame the canvas shows for a state. */
module PcbComponent {
  import opened Wrappers
  import opened Seqs
  import opened PcbTypes
  import opened PcbGeometry
  import opened PcbRender

  datatype Tool = Select | CircleTool | RectangleTool

  /** Everything the component keeps between events. */
  datatype PcbState = PcbState(
    analysis: Option<Analysis>,
    zoom: real,
    showAnnotations: bool,
    showGrid: bool,
    tool: Tool,
    selected: Option<Annotation>,
    draft: Draft)

  /** The component on mount: no photo, zoom 1, annotations shown, grid
      hidden, select tool, nothing selected, the default form. */
  const Initial: PcbState := PcbState(None, 1.0, true, false, Select, None, DefaultDraft)

  /** The annotations of the current photo, or none without one. */
  function Annotations(s: PcbState): seq<Annotation>
  {
    if s.analysis.Some? then s.analysis.value.annotations else []
  }

  /** No two annotations of the current photo share an id. */
  ghost predicate IdsDistinct(s: PcbState)
  {
    DistinctKeys(Annotations(s), IdOf)
  }

  /** A media type the upload accepts: one starting with "image/". */
  predicate IsImageType(mediaType: string)
  {
    |mediaType| >= 6 && mediaType[..6] == "image/"
  }

  /** A decoded upload replaces the current photo, and with it all of its
      annotations, by a fresh analysis with no annotations. A file that is
      not an image is refused and nothing changes. The view settings, the
      selection and the form are left as they were. */
  function LoadImage(s: PcbState, mediaType: string, imageUrl: string, metadata: Metadata): (r: PcbState)
    ensures !IsImageType(mediaType) ==> r == s
    ensures IsImageType(mediaType) ==>
      r.analysis.Some? && r.analysis.value.annotations == [] &&
      r.analysis.value.imageUrl == imageUrl && r.analysis.value.metadata == metadata
    ensures r.(analysis := s.analysis) == s
  {
    if IsImageType(mediaType) then s.(analysis := Some(Analysis(imageUrl, [], metadata)))
    else s
  }

  /** The annotation built from the form: coordinates and shape fields are
      copied as they are, and kind, caption, severity and notes fall back to
      damage, the placeholder caption, medium and "" whenever the form's
      value is absent or empty. */
  function NewAnnotation(d: Draft, id: string): (a: Annotation)
    requires d.x.Some? && d.y.Some?
    ensures a.id == id && a.x == d.x.value && a.y == d.y.value
    ensures a.width == d.width && a.height == d.height && a.radius == d.radius
    ensures d.kind.Some? ==> a.kind == d.kind.value
    ensures d.kind.None? ==> a.kind == Damage
    ensures TruthyText(d.caption) ==> a.caption == d.caption.value
    ensures !TruthyText(d.caption) ==> a.caption == PlaceholderLabel
    ensures d.severity.Some? ==> a.severity == d.severity.value
    ensures d.severity.None? ==> a.severity == Medium
    ensures TruthyText(d.notes) ==> a.notes == d.notes.value
    ensures !TruthyText(d.notes) ==> a.notes == ""
  {
    Annotation(
      id,
      d.kind.GetOr(Damage),
      d.x.value,
      d.y.value,
      d.width,
      d.height,
      d.radius,
      if TruthyText(d.caption) then d.caption.value else PlaceholderLabel,
      d.severity.GetOr(Medium),
      if TruthyText(d.notes) then d.notes.value else "")
  }

  /** Whether an add goes ahead: there is a photo and the form's x and y are
      both truthy, so a coordinate of 0 counts as missing. */
  predicate CanAdd(s: PcbState)
  {
    s.analysis.Some? && Truthy(s.draft.x) && Truthy(s.draft.y)
  }

  /** Adds the form as a new annotation with id `freshId` at the end of the
      list and resets the form; a no-op when CanAdd fails. */
  function AddAnnotation(s: PcbState, freshId: string): (r: PcbState)
    ensures !CanAdd(s) ==> r == s
    ensures CanAdd(s) ==>
      var old_ := s.analysis.value;
      && r.analysis.Some?
      && var new_ := r.analysis.value;
      && |new_.annotations| == |old_.annotations| + 1
      && new_.annotations[..|old_.annotations|] == old_.annotations
      && new_.annotations[|old_.annotations|] == NewAnnotation(s.draft, freshId)
      && new_.imageUrl == old_.imageUrl
      && new_.metadata == old_.metadata
      && r.draft == DefaultDraft
      && r.(analysis := s.analysis, draft := s.draft) == s
  {
    if !CanAdd(s) then s
    else
      var a := s.analysis.value;
      s.(analysis := Some(a.(annotations := a.annotations + [NewAnnotation(s.draft, freshId)])),
         draft := DefaultDraft)
  }

  /** With a photo loaded, removes every annotation whose id is `id`, keeping
      the others in their order, and clears the selection whatever was
      selected. Without a photo nothing changes. */
  function DeleteAnnotation(s: PcbState, id: string): (r: PcbState)
    ensures s.analysis.None? ==> r == s
    ensures s.analysis.Some? ==>
      && r.analysis.Some?
      && r.selected.None?
      && r.analysis.value.imageUrl == s.analysis.value.imageUrl
      && r.analysis.value.metadata == s.analysis.value.metadata
      && r.analysis.value.annotations == Drop(s.analysis.value.annotations, IdOf, {id})
      && (forall a :: a in r.analysis.value.annotations <==> a in s.analysis.value.annotations && a.id != id)
      && r.(analysis := s.analysis, selected := s.selected) == s
  {
    if s.analysis.None? then s
    else
      var a := s.analysis.value;
      s.(analysis := Some(a.(annotations := Drop(a.annotations, IdOf, {id}))), selected := None)
  }

  /** A click on the canvas: with a photo loaded and the select tool active,
      the selection becomes the first annotation the click hits in image
      space, or nothing. Any other click changes nothing. */
  function HandleCanvasClick(s: PcbState, client: Point, rect: ClientRect): (r: PcbState)
    requires s.zoom != 0.0
    ensures s.analysis.None? || s.tool != Select ==> r == s
    ensures s.analysis.Some? && s.tool == Select ==>
      var p := ToImage(client, rect, s.zoom);
      && (r.selected.Some? ==> r.selected.value in Annotations(s) && Hits(r.selected.value, p))
      && (r.selected.None? <==> forall a :: a in Annotations(s) ==> !Hits(a, p))
      && r.selected == HitTest(Annotations(s), p)
    ensures r.(selected := s.selected) == s
  {
    if s.analysis.None? || s.tool != Select then s
    else s.(selected := HitTest(s.analysis.value.annotations, ToImage(client, rect, s.zoom)))
  }

  /** Sets the zoom back to 1; nothing else changes. */
  function ResetZoom(s: PcbState): (r: PcbState)
    ensures r.zoom == 1.0
    ensures r.(zoom := s.zoom) == s
  {
    s.(zoom := 1.0)
  }

  /** One repaint of the canvas. Only the photo is scaled by the zoom; grid
      lines and shapes are placed in unscaled canvas pixels. */
  datatype Frame = Frame(imageScale: real, verticals: seq<int>, horizontals: seq<int>, shapes: seq<Shape>)

  /** The frame painted for a state whose photo is `width` by `height`
      pixels; without a photo nothing is painted. */
  function Render(s: PcbState, width: nat, height: nat): (f: Option<Frame>)
    ensures f.Some? <==> s.analysis.Some?
    ensures f.Some? ==> f.value.imageScale == s.zoom
    ensures f.Some? ==> (s.showGrid <==> |f.value.verticals| > 0) && (s.showGrid <==> |f.value.horizontals| > 0)
    ensures f.Some? && s.showGrid ==>
      f.value.verticals == GridPositions(width) && f.value.horizontals == GridPositions(height)
    ensures f.Some? ==> (s.showAnnotations ==> f.value.shapes == DrawnShapes(Annotations(s)))
    ensures f.Some? ==> (!s.showAnnotations ==> f.value.shapes == [])
  {
    if s.analysis.None? then None
    else
      Some(Frame(
        s.zoom,
        if s.showGrid then GridPositions(width) else [],
        if s.showGrid then GridPositions(height) else [],
        if s.showAnnotations then DrawnShapes(s.analysis.value.annotations) else []))
  }
}

=== FILE: pcb_geometry.dfy ===
/** Screen-to-image coordinate mapping and the click hit-test of the PCB
    canvas. */
module PcbGeometry {
  import opened Wrappers
  import opened PcbTypes

  datatype Point = Point(x: real, y: real)

  /** The canvas's on-screen origin (`getBoundingClientRect().left/top`). */
  datatype ClientRect = ClientRect(left: real, top: real)

  /** Maps a mouse position in client coordinates to image space: the
      canvas offset is subtracted first, then the result is divided by the
      zoom. The image point is the one that scaling by zoom and shifting by
      the offset carries back onto the client point. */
  function ToImage(client: Point, rect: ClientRect, zoom: real): (p: Point)
    requires zoom != 0.0
    ensures p.x * zoom + rect.left == client.x
    ensures p.y * zoom + rect.top == client.y
  {
    Point((client.x - rect.left) / zoom, (client.y - rect.top) / zoom)
  }

  /** Where an image-space point lands on screen at the given zoom. */
  function ToClient(p: Point, rect: ClientRect, zoom: real): Point
  {
    Point(p.x * zoom + rect.left, p.y * zoom + rect.top)
  }

  /** The two mappings are inverse to each other in both directions. */
  lemma MappingRoundTrip(client: Point, p: Point, rect: ClientRect, zoom: real)
    requires zoom != 0.0
    ensures ToClient(ToImage(client, rect, zoom), rect, zoom) == client
    ensures ToImage(ToClient(p, rect, zoom), rect, zoom) == p
  {
    var q := ToImage(ToClient(p, rect, zoom), rect, zoom);
    assert q.x * zoom == p.x * zoom;
    assert q.y * zoom == p.y * zoom;
  }

  /** The Euclidean distance between (dx, dy) and the origin is at most r:
      sqrt(dx*dx + dy*dy) <= r holds exactly when r is non-negative and the
      squared distance is at most r*r. */
  predicate WithinDistance(dx: real, dy: real, r: real)
  {
    r >= 0.0 && dx * dx + dy * dy <= r * r
  }

  /** The click test applied to each annotation: only an annotation with a
      truthy radius can match, and it matches when the point lies within that
      radius of its anchor. Width and height are never looked at. */
  predicate Hits(a: Annotation, p: Point)
  {
    Truthy(a.radius) && WithinDistance(p.x - a.x, p.y - a.y, a.radius.value)
  }

  /** The position of the first annotation, in list order, that the point
      hits, or None when it hits none. */
  function FirstHit(anns: seq<Annotation>, p: Point): (r: Option<nat>)
    ensures r.Some? ==> r.value < |anns| && Hits(anns[r.value], p)
    ensures r.Some? ==> forall j :: 0 <= j < r.value ==> !Hits(anns[j], p)
    ensures r.None? <==> forall j :: 0 <= j < |anns| ==> !Hits(anns[j], p)
  {
    if |anns| == 0 then None
    else if Hits(anns[0], p) then Some(0)
    else
      match FirstHit(anns[1..], p)
      case None => None
      case Some(i) => Some(i + 1)
  }

  /** The click handler's `annotations.find(...)`: the first annotation the
      point hits. The result always has a truthy radius, so an annotation drawn as
      a rectangle can never be returned. */
  function HitTest(anns: seq<Annotation>, p: Point): (r: Option<Annotation>)
    ensures r.Some? ==> r.value in anns && Hits(r.value, p) && Truthy(r.value.radius)
    ensures r.Some? ==> exists i :: 0 <= i < |anns| && anns[i] == r.value && forall j :: 0 <= j < i ==> !Hits(anns[j], p)
    ensures r.None? <==> forall a :: a in anns ==> !Hits(a, p)
  {
    match FirstHit(anns, p)
    case None => None
    case Some(i) => Some(anns[i])
  }

  /** HitTest picks the earliest match: if the point hits the annotation at
      position i, then the result is that annotation or one that comes
      before it. */
  lemma HitTestIsEarliest(anns: seq<Annotation>, p: Point, i: nat)
    requires i < |anns| && Hits(anns[i], p)
    ensures FirstHit(anns, p).Some? && FirstHit(anns, p).value <= i
    ensures HitTest(anns, p) == Some(anns[FirstHit(anns, p).value])
  {
  }
}

=== FILE: pcb_properties.dfy ===
/** Properties relating several transitions of the PCB component. */
module PcbProperties {
  import opened Wrappers
  import opened Seqs
  import opened PcbTypes
  import opened PcbGeometry
  import opened PcbRender
  import opened PcbComponent

  /** An add with an id not yet in the list keeps ids unique. */
  lemma AddKeepsIdsDistinct(s: PcbState, freshId: string)
    requires IdsDistinct(s)
    requires forall a :: a in Annotations(s) ==> a.id != freshId
    ensures IdsDistinct(AddAnnotation(s, freshId))
  {
    if CanAdd(s) {
      var anns := s.analysis.value.annotations;
      AppendFreshKeepsDistinct(anns, NewAnnotation(s.draft, freshId), IdOf);
      assert Annotations(AddAnnotation(s, freshId)) == anns + [NewAnnotation(s.draft, freshId)];
    }
  }

  /** A delete keeps ids unique. */
  lemma DeleteKeepsIdsDistinct(s: PcbState, id: string)
    requires IdsDistinct(s)
    ensures IdsDistinct(DeleteAnnotation(s, id))
  {
    if s.analysis.Some? {
      DropKeepsDistinct(s.analysis.value.annotations, IdOf, {id});
    }
  }

  /** Deleting an id that is in no annotation leaves the list as it was
      (the selection is still cleared). */
  lemma DeleteAbsentIdKeepsList(s: PcbState, id: string)
    requires forall a :: a in Annotations(s) ==> a.id != id
    ensures Annotations(DeleteAnnotation(s, id)) == Annotations(s)
  {
  }

  /** Deleting the annotation just added under a fresh id gives back the
      list as it was before the add. */
  lemma DeleteUndoesAdd(s: PcbState, freshId: string)
    requires CanAdd(s)
    requires forall a :: a in Annotations(s) ==> a.id != freshId
    ensures Annotations(DeleteAnnotation(AddAnnotation(s, freshId), freshId)) == Annotations(s)
  {
    var anns := s.analysis.value.annotations;
    var added := NewAnnotation(s.draft, freshId);
    assert Annotations(AddAnnotation(s, freshId)) == anns + [added];
    DropAppend(anns, [added], IdOf, {freshId});
    assert Drop([added], IdOf, {freshId}) == [];
  }

  /** After an add the canvas paints what it painted before, followed by
      the new annotation's shape if it has one; but when painting already
      throws on an earlier annotation, the new one is not painted either. */
  lemma AddPaintsNewShapeLast(s: PcbState, freshId: string, width: nat, height: nat)
    requires CanAdd(s) && s.showAnnotations
    ensures var a := NewAnnotation(s.draft, freshId);
      var before := Render(s, width, height).value.shapes;
      var after := Render(AddAnnotation(s, freshId), width, height).value.shapes;
      && ((exists i :: 0 <= i < |Annotations(s)| && DrawShape(Annotations(s)[i]).Throws?) ==> after == before)
      && ((forall x :: x in Annotations(s) ==> !DrawShape(x).Throws?) ==>
            after == before + (if DrawShape(a).Draw? then [DrawShape(a).shape] else []))
  {
    var anns := s.analysis.value.annotations;
    var a := NewAnnotation(s.draft, freshId);
    assert Annotations(AddAnnotation(s, freshId)) == anns + [a];
    if i :| 0 <= i < |anns| && DrawShape(anns[i]).Throws? {
      DrawnShapesAfterThrow(anns, [a], i);
    } else {
      DrawnShapesAppend(anns, [a]);
      assert [a][1..] == [];
    }
  }

  /** A second click at the same place selects the same annotation as the
      first: the click does not change what it reads. */
  lemma ClickIsIdempotent(s: PcbState, client: Point, rect: ClientRect)
    requires s.zoom != 0.0
    ensures HandleCanvasClick(HandleCanvasClick(s, client, rect), client, rect) == HandleCanvasClick(s, client, rect)
  {
  }

  /** After a zoom reset the click mapping no longer divides by a zoom. The
      canvas sits at `rect`, is shown at its own pixel size (one client pixel
      per canvas pixel), and its pixels start `border` client pixels inside
      `rect`, the width of its CSS border. A click on the painted centre of
      a circle annotation then maps to the centre shifted by `border` along
      both axes, and it selects an annotation, that circle or one listed
      before it, whenever the circle reaches that far. A canvas shrunk by its
      style is not covered. */
  lemma ResetZoomRealignsClicks(s: PcbState, rect: ClientRect, border: real, i: nat)
    requires s.analysis.Some? && s.tool == Select
    requires i < |Annotations(s)|
    requires Annotations(s)[i].radius.Some? && Annotations(s)[i].radius.value > 0.0
    ensures var a := Annotations(s)[i];
      var click := Point(rect.left + border + a.x, rect.top + border + a.y);
      var q := Point(a.x + border, a.y + border);
      var r := HandleCanvasClick(ResetZoom(s), click, rect);
      && ToImage(click, rect, 1.0) == q
      && r.selected == HitTest(Annotations(s), q)
      && (2.0 * border * border <= a.radius.value * a.radius.value ==>
            && r.selected.Some?
            && FirstHit(Annotations(s), q).Some?
            && FirstHit(Annotations(s), q).value <= i
            && r.selected == Some(Annotations(s)[FirstHit(Annotations(s), q).value]))
  {
    var anns := Annotations(s);
    var a := anns[i];
    var click := Point(rect.left + border + a.x, rect.top + border + a.y);
    var q := Point(a.x + border, a.y + border);
    assert ToImage(click, rect, 1.0) == q;
    if 2.0 * border * border <= a.radius.value * a.radius.value {
      assert Hits(a, q);
      HitTestIsEarliest(anns, q, i);
    }
  }

  /** The canvas's one-pixel border shifts every click by one canvas pixel
      along both axes, so a click on the painted centre of a circle of
      radius 1 misses it even at zoom 1. */
  lemma BorderMakesTinyCircleMissed(metadata: Metadata, rect: ClientRect)
    ensures
      var a := Annotation("1", Damage, 100.0, 100.0, None, None, Some(1.0), "c", High, "");
      var s := Initial.(analysis := Some(Analysis("data:", [a], metadata)));
      && Render(s, 800, 600).value.shapes == [Circle(100.0, 100.0, 1.0)]
      && HandleCanvasClick(ResetZoom(s), Point(rect.left + 101.0, rect.top + 101.0), rect).selected == None
  {
    var a := Annotation("1", Damage, 100.0, 100.0, None, None, Some(1.0), "c", High, "");
    assert [a][1..] == [];
    assert ToImage(Point(rect.left + 101.0, rect.top + 101.0), rect, 1.0) == Point(101.0, 101.0);
    assert !Hits(a, Point(101.0, 101.0));
  }

  /** Before any photo is loaded the component is inert: nothing is painted
      and adding, deleting and clicking change nothing. */
  lemma MountStateIsInert(freshId: string, id: string, client: Point, rect: ClientRect, width: nat, height: nat)
    ensures Initial.analysis.None? && Initial.selected.None? && Initial.draft == DefaultDraft
    ensures Initial.zoom == 1.0 && Initial.showAnnotations && !Initial.showGrid && Initial.tool == Select
    ensures Render(Initial, width, height).None?
    ensures AddAnnotation(Initial, freshId) == Initial
    ensures DeleteAnnotation(Initial, id) == Initial
    ensures HandleCanvasClick(Initial, client, rect) == Initial
  {
  }

  /** The form's starting value, once given coordinates, yields a damage
      annotation of medium severity with the placeholder caption, empty notes
      and no size. */
  lemma DefaultDraftGivesPlaceholder(x: real, y: real, id: string)
    ensures var a := NewAnnotation(DefaultDraft.(x := Some(x), y := Some(y)), id);
      && a.kind == Damage && a.severity == Medium
      && a.caption == PlaceholderLabel && a.notes == ""
      && a.width.None? && a.height.None? && a.radius.None?
  {
  }

  /** A successful add resets the form to the mount-time draft, which has no
      coordinates, so adding again without editing the form does nothing. */
  lemma SecondAddIsNoOp(s: PcbState, firstId: string, secondId: string)
    requires CanAdd(s)
    ensures AddAnnotation(s, firstId).draft == Initial.draft
    ensures AddAnnotation(AddAnnotation(s, firstId), secondId) == AddAnnotation(s, firstId)
  {
  }

  /** A worked example: on a photo with a circle of radius 20 at (100, 100)
      followed by a 50 by 30 rectangle at (300, 300), a click that maps to
      (105, 103) selects the circle and one at (400, 400) selects nothing;
      both annotations get the ids handed to the adds, in order. */
  lemma CircleAndRectangleScenario(metadata: Metadata)
    ensures
      var circle := Draft(None, Some(Damage), Some(100.0), Some(100.0), None, None, Some(20.0), Some(""), Some(High), Some(""));
      var box := Draft(None, Some(Damage), Some(300.0), Some(300.0), Some(50.0), Some(30.0), None, Some(""), Some(Low), Some(""));
      var loaded := LoadImage(Initial, "image/png", "data:", metadata);
      var s1 := AddAnnotation(loaded.(draft := circle), "1");
      var s2 := AddAnnotation(s1.(draft := box), "2");
      var anns := Annotations(s2);
      && |anns| == 2
      && anns[0].id == "1" && anns[0].severity == High
      && anns[1].id == "2" && anns[1].severity == Low
      && HandleCanvasClick(s2, Point(105.0, 103.0), ClientRect(0.0, 0.0)).selected == Some(anns[0])
      && HandleCanvasClick(s2, Point(400.0, 400.0), ClientRect(0.0, 0.0)).selected == None
  {
    var circle := Draft(None, Some(Damage), Some(100.0), Some(100.0), None, None, Some(20.0), Some(""), Some(High), Some(""));
    var box := Draft(None, Some(Damage), Some(300.0), Some(300.0), Some(50.0), Some(30.0), None, Some(""), Some(Low), Some(""));
    var loaded := LoadImage(Initial, "image/png", "data:", metadata);
    assert IsImageType("image/png");
    var s1 := AddAnnotation(loaded.(draft := circle), "1");
    var s2 := AddAnnotation(s1.(draft := box), "2");
    var anns := Annotations(s2);
    assert anns == [NewAnnotation(circle, "1"), NewAnnotation(box, "2")];
    assert Hits(anns[0], Point(105.0, 103.0));
    assert !Hits(anns[0], Point(400.0, 400.0));
    assert !Hits(anns[1], Point(400.0, 400.0));
  }

  /** Shapes are painted without the zoom while clicks are divided by it, so
      away from zoom 1 a click on a painted circle can miss it. With a circle
      of radius 20 at (100, 100) and the canvas's outer edge at the page
      origin, shown at its own pixel size, the painted centre is at client
      point (101, 101), one pixel inside the border. A click there selects
      the circle at zoom 1 and nothing at zoom 2. */
  lemma PaintedCircleMissedWhenZoomed(metadata: Metadata)
    ensures
      var a := Annotation("1", Damage, 100.0, 100.0, None, None, Some(20.0), "c", High, "");
      var s := Initial.(analysis := Some(Analysis("data:", [a], metadata)));
      && Render(s.(zoom := 2.0), 800, 600).value.shapes == [Circle(100.0, 100.0, 20.0)]
      && HandleCanvasClick(s, Point(101.0, 101.0), ClientRect(0.0, 0.0)).selected == Some(a)
      && HandleCanvasClick(s.(zoom := 2.0), Point(101.0, 101.0), ClientRect(0.0, 0.0)).selected == None
  {
    var a := Annotation("1", Damage, 100.0, 100.0, None, None, Some(20.0), "c", High, "");
    assert [a][1..] == [];
    assert Hits(a, Point(101.0, 101.0));
    assert !Hits(a, Point(50.5, 50.5));
  }
}

=== FILE: pcb_render.dfy ===
/** The drawing decisions of the PCB canvas: which shape, if any, is drawn
    for an annotation, where the grid lines go, and the colour class of each
    severity. Pixel painting itself is not modelled. */
module PcbRender {
  import opened Wrappers
  import opened PcbTypes
  import opened Seqs

  /** A shape as handed to the canvas: a circle around (cx, cy), or a
      rectangle whose top-left corner is (left, top). */
  datatype Shape =
    | Circle(cx: real, cy: real, r: real)
    | Rect(left: real, top: real, w: real, h: real)

  /** The spacing between grid lines, in canvas pixels. */
  const GridSize: nat := 50

  /** What painting one annotation does: nothing, one shape, or an
      exception. The canvas `arc` call rejects a negative radius by throwing,
      which ends the painting loop. */
  datatype Paint = Skip | Draw(shape: Shape) | Throws

  /** Only damage and component annotations are drawn. A truthy radius
      makes a circle, and takes precedence over a size; a negative one makes
      the `arc` call throw. Otherwise a truthy width and a truthy height make
      a rectangle (a negative size is accepted by `fillRect`); anything else
      is skipped. */
  function DrawShape(a: Annotation): (r: Paint)
    ensures r.Skip? <==>
      !(a.kind == Damage || a.kind == Component) ||
      !(Truthy(a.radius) || (Truthy(a.width) && Truthy(a.height)))
    ensures r.Throws? <==>
      (a.kind == Damage || a.kind == Component) && Truthy(a.radius) && a.radius.value < 0.0
    ensures r.Draw? && Truthy(a.radius) ==> r.shape == Circle(a.x, a.y, a.radius.value) && a.radius.value > 0.0
    ensures r.Draw? && !Truthy(a.radius) ==> r.shape == Rect(a.x, a.y, a.width.value, a.height.value)
  {
    if a.kind == Damage || a.kind == Component then
      if Truthy(a.radius) then
        if a.radius.value < 0.0 then Throws else Draw(Circle(a.x, a.y, a.radius.value))
      else if Truthy(a.width) && Truthy(a.height) then Draw(Rect(a.x, a.y, a.width.value, a.height.value))
      else Skip
    else Skip
  }

  /** The shapes painted for a list of annotations, in list order, up to the
      first annotation whose painting throws. */
  function DrawnShapes(anns: seq<Annotation>): (r: seq<Shape>)
    ensures |r| <= |anns|
    ensures forall sh :: sh in r ==> exists a :: a in anns && DrawShape(a) == Draw(sh)
    ensures (forall a :: a in anns ==> DrawShape(a).Skip?) ==> r == []
  {
    if |anns| == 0 then []
    else
      match DrawShape(anns[0])
      case Draw(sh) => [sh] + DrawnShapes(anns[1..])
      case Skip => DrawnShapes(anns[1..])
      case Throws => []
  }

  /** Every drawable annotation with no throwing annotation before it gets
      its shape painted. */
  lemma {:induction false} DrawnShapesComplete(anns: seq<Annotation>, i: nat)
    requires i < |anns| && DrawShape(anns[i]).Draw?
    requires forall j :: 0 <= j < i ==> !DrawShape(anns[j]).Throws?
    ensures DrawShape(anns[i]).shape in DrawnShapes(anns)
  {
    if i > 0 {
      assert !DrawShape(anns[0]).Throws?;
      DrawnShapesComplete(anns[1..], i - 1);
    }
  }

  /** Once an annotation's painting throws, nothing after it is painted:
      appending more annotations changes nothing. */
  lemma {:induction false} DrawnShapesAfterThrow(anns: seq<Annotation>, more: seq<Annotation>, i: nat)
    requires i < |anns| && DrawShape(anns[i]).Throws?
    ensures DrawnShapes(anns + more) == DrawnShapes(anns)
  {
    assert (anns + more)[0] == anns[0] && (anns + more)[1..] == anns[1..] + more;
    if i > 0 {
      DrawnShapesAfterThrow(anns[1..], more, i - 1);
    }
  }

  /** Drawing a concatenation whose first part throws nowhere draws the
      first part, then the second: the canvas paints annotations in list
      order. */
  lemma {:induction false} DrawnShapesAppend(a: seq<Annotation>, b: seq<Annotation>)
    requires forall x :: x in a ==> !DrawShape(x).Throws?
    ensures DrawnShapes(a + b) == DrawnShapes(a) + DrawnShapes(b)
  {
    if |a| == 0 {
      assert a + b == b;
    } else {
      assert (a + b)[0] == a[0] && (a + b)[1..] == a[1..] + b;
      assert a[0] in a;
      assert forall x :: x in a[1..] ==> x in a;
      DrawnShapesAppend(a[1..], b);
      match DrawShape(a[0])
      case Draw(sh) =>
        calc {
          DrawnShapes(a + b);
          [sh] + DrawnShapes(a[1..] + b);
          [sh] + (DrawnShapes(a[1..]) + DrawnShapes(b));
          { ConcatAssoc([sh], DrawnShapes(a[1..]), DrawnShapes(b)); }
          [sh] + DrawnShapes(a[1..]) + DrawnShapes(b);
        }
      case Skip =>
    }
  }

  /** An annotation that carries a radius and a full size at once, which the
      type allows, is painted as a circle when the radius is positive and
      not at all when it is negative; the size is ignored either way. */
  lemma RadiusWinsOverSize(a: Annotation)
    requires a.kind == Damage || a.kind == Component
    requires Truthy(a.radius) && Truthy(a.width) && Truthy(a.height)
    ensures a.radius.value > 0.0 ==> DrawnShapes([a]) == [Circle(a.x, a.y, a.radius.value)]
    ensures a.radius.value < 0.0 ==> DrawnShapes([a]) == []
  {
    assert [a][1..] == [];
  }

  /** Positions of the grid lines along a canvas side of the given length:
      every multiple of the grid size from 0 up to and including the length. */
  function GridPositions(extent: nat): (r: seq<int>)
    ensures forall i :: 0 <= i < |r| ==> r[i] == GridSize * i && r[i] <= extent
    ensures GridSize * |r| > extent
  {
    seq(extent / GridSize + 1, i => GridSize * i)
  }

  /** The `drawGrid` loop `for (x = 0; x <= extent; x += gridSize)`. */
  method GridLines(extent: nat) returns (xs: seq<int>)
    ensures xs == GridPositions(extent)
    ensures |xs| == extent / GridSize + 1
  {
    xs := [];
    var x := 0;
    while x <= extent
      invariant x == GridSize * |xs|
      invariant forall i :: 0 <= i < |xs| ==> xs[i] == GridSize * i && xs[i] <= extent
      invariant x <= extent + GridSize
      decreases extent - x
    {
      xs := xs + [x];
      x := x + GridSize;
    }
    GridPositionsUnique(extent, xs);
  }

  /** The two facts GridPositions promises single out its result. */
  lemma GridPositionsUnique(extent: nat, xs: seq<int>)
    requires forall i :: 0 <= i < |xs| ==> xs[i] == GridSize * i && xs[i] <= extent
    requires GridSize * |xs| > extent
    ensures xs == GridPositions(extent)
  {
    var n := |xs|;
    assert n >= 1;
    assert xs[n - 1] <= extent;
    assert n - 1 == extent / GridSize;
  }

  /** The colour class of each severity. It is a stylesheet class name, not
      a colour: the badge in the list shows it, while the canvas ignores it.
      The fill stays the default black; the outline is black, or the grid's
      faint white when the grid is shown. */
  function SeverityColor(v: Severity): string
  {
    match v
    case Low => "bg-blue-500"
    case Medium => "bg-yellow-500"
    case High => "bg-orange-500"
    case Critical => "bg-red-500"
  }

  /** Distinct severities get distinct colour classes, so the badges in the
      list tell severities apart. */
  lemma SeverityColorsDistinct(v: Severity, w: Severity)
    requires v != w
    ensures SeverityColor(v) != SeverityColor(w)
  {
    assert SeverityColor(v)[3] != SeverityColor(w)[3] || |SeverityColor(v)| != |SeverityColor(w)|;
  }
}

=== FILE: pcb_types.dfy ===
/** The records of the PCB annotation tool: one marked region on a board
    photo (`Annotation`), one loaded photo with its annotations
    (`Analysis`), and the half-filled form an annotation is created from
    (`Draft`, the component's `Partial<Annotation>`). Coordinates and sizes are
    the component's JavaScript numbers, modelled as `real`. */
module PcbTypes {
  import opened Wrappers

  datatype AnnotationKind = Damage | Component | Trace | Via

  datatype Severity = Low | Medium | High | Critical

  /** An annotation anchored at image-space point (x, y). Width, height and
      radius are each independently optional: nothing in the type stops one
      annotation from carrying a radius and a width/height at once. */
  datatype Annotation = Annotation(
    id: string,
    kind: AnnotationKind,
    x: real,
    y: real,
    width: Option<real>,
    height: Option<real>,
    radius: Option<real>,
    caption: string,
    severity: Severity,
    notes: string)

  /** Capture metadata; `uploadDate` is the load time in milliseconds. */
  datatype Metadata = Metadata(resolution: string, size: string, format: string, uploadDate: int)

  datatype Analysis = Analysis(imageUrl: string, annotations: seq<Annotation>, metadata: Metadata)

  /** Every field of an annotation, each possibly absent. */
  datatype Draft = Draft(
    id: Option<string>,
    kind: Option<AnnotationKind>,
    x: Option<real>,
    y: Option<real>,
    width: Option<real>,
    height: Option<real>,
    radius: Option<real>,
    caption: Option<string>,
    severity: Option<Severity>,
    notes: Option<string>)

  /** The form's state on mount and after every successful add. */
  const DefaultDraft: Draft :=
    Draft(None, Some(Damage), None, None, None, None, None, Some(""), Some(Medium), Some(""))

  /** The caption (the TypeScript `label` field, a reserved word here) an
      annotation gets when the form's caption is absent or empty. */
  const PlaceholderLabel: string := "Nova Anotação"

  function IdOf(a: Annotation): string { a.id }

  /** JavaScript truthiness of an optional number: present and non-zero.
      (NaN, also falsy in JavaScript, is not a `real`.) */
  predicate Truthy(n: Option<real>)
  {
    n.Some? && n.value != 0.0
  }

  /** JavaScript truthiness of an optional string: present and non-empty. */
  predicate TruthyText(t: Option<string>)
  {
    t.Some? && t.value != ""
  }

  function KindName(k: AnnotationKind): string
  {
    match k
    case Damage => "damage"
    case Component => "component"
    case Trace => "trace"
    case Via => "via"
  }

  /** Names exactly the strings the kind's union type admits: the four
      kind names, each naming its own kind. */
  function ParseKind(s: string): (r: Option<AnnotationKind>)
    ensures r.Some? ==> KindName(r.value) == s
    ensures r.None? ==> forall k :: KindName(k) != s
  {
    if s == "damage" then Some(Damage)
    else if s == "component" then Some(Component)
    else if s == "trace" then Some(Trace)
    else if s == "via" then Some(Via)
    else None
  }

  function SeverityName(v: Severity): string
  {
    match v
    case Low => "low"
    case Medium => "medium"
    case High => "high"
    case Critical => "critical"
  }

  /** Names exactly the strings the severity's union type admits: the four
      level names, each naming its own level. */
  function ParseSeverity(s: string): (r: Option<Severity>)
    ensures r.Some? ==> SeverityName(r.value) == s
    ensures r.None? ==> forall v :: SeverityName(v) != s
  {
    if s == "low" then Some(Low)
    else if s == "medium" then Some(Medium)
    else if s == "high" then Some(High)
    else if s == "critical" then Some(Critical)
    else None
  }
}

=== FILE: seqs.dfy ===
/** Order-preserving filtering of keyed records, as done by the app's
    `list.filter(item => item.id !== id)` idiom, and distinctness of keys. */
module Seqs {

  /** The elements of `s` whose key is not in `gone`, in their original order. */
  function Drop<T(!new), K>(s: seq<T>, key: T -> K, gone: set<K>): (r: seq<T>)
    ensures |r| <= |s|
    ensures forall x :: x in r <==> x in s && key(x) !in gone
    ensures (forall x :: x in s ==> key(x) !in gone) ==> r == s
  {
    if |s| == 0 then []
    else if key(s[0]) in gone then Drop(s[1..], key, gone)
    else [s[0]] + Drop(s[1..], key, gone)
  }

  /** No two positions of `s` carry the same key. */
  ghost predicate DistinctKeys<T, K>(s: seq<T>, key: T -> K)
  {
    forall i, j :: 0 <= i < j < |s| ==> key(s[i]) != key(s[j])
  }

  /** Dropping distributes over concatenation: the order of the survivors is
      the order they had in the input. */
  lemma {:induction false} DropAppend<T(!new), K>(a: seq<T>, b: seq<T>, key: T -> K, gone: set<K>)
    ensures Drop(a + b, key, gone) == Drop(a, key, gone) + Drop(b, key, gone)
  {
    if |a| == 0 {
      assert a + b == b;
    } else {
      assert (a + b)[1..] == a[1..] + b;
      DropAppend(a[1..], b, key, gone);
    }
  }

  /** Regrouping a concatenation, stated on its own to keep larger proofs
      cheap. */
  lemma ConcatAssoc<T>(a: seq<T>, b: seq<T>, c: seq<T>)
    ensures a + b + c == a + (b + c)
  {
  }

  /** A single element whose key is not dropped survives. */
  lemma DropSingleton<T(!new), K>(x: T, key: T -> K, gone: set<K>)
    requires key(x) !in gone
    ensures Drop([x], key, gone) == [x]
  {
    assert [x][1..] == [];
  }

  /** Dropping twice is dropping the union of the two key sets once. */
  lemma {:induction false} DropDrop<T(!new), K>(s: seq<T>, key: T -> K, a: set<K>, b: set<K>)
    ensures Drop(Drop(s, key, a), key, b) == Drop(s, key, a + b)
  {
    if |s| > 0 {
      DropDrop(s[1..], key, a, b);
      if key(s[0]) !in a {
        assert Drop(s, key, a) == [s[0]] + Drop(s[1..], key, a);
        DropAppend([s[0]], Drop(s[1..], key, a), key, b);
      }
    }
  }

  /** A sequence with an element in front has distinct keys exactly when the
      rest does and no element of the rest shares the front element's key. */
  lemma DistinctKeysCons<T, K>(x: T, t: seq<T>, key: T -> K)
    ensures DistinctKeys([x] + t, key) <==> (forall y :: y in t ==> key(y) != key(x)) && DistinctKeys(t, key)
  {
    var s := [x] + t;
    if DistinctKeys(s, key) {
      forall y | y in t
        ensures key(y) != key(x)
      {
        var j :| 0 <= j < |t| && t[j] == y;
        assert s[0] == x && s[j + 1] == y;
      }
      forall i, j | 0 <= i < j < |t|
        ensures key(t[i]) != key(t[j])
      {
        assert s[i + 1] == t[i] && s[j + 1] == t[j];
      }
    }
    if (forall y :: y in t ==> key(y) != key(x)) && DistinctKeys(t, key) {
      forall i, j | 0 <= i < j < |s|
        ensures key(s[i]) != key(s[j])
      {
        if i == 0 {
          assert s[j] == t[j - 1];
          assert s[j] in t;
        } else {
          assert s[i] == t[i - 1] && s[j] == t[j - 1];
        }
      }
    }
  }

  /** Dropping keeps keys distinct. */
  lemma {:induction false} DropKeepsDistinct<T(!new), K>(s: seq<T>, key: T -> K, gone: set<K>)
    requires DistinctKeys(s, key)
    ensures DistinctKeys(Drop(s, key, gone), key)
  {
    if |s| > 0 {
      assert s == [s[0]] + s[1..];
      DistinctKeysCons(s[0], s[1..], key);
      DropKeepsDistinct(s[1..], key, gone);
      if key(s[0]) !in gone {
        DistinctKeysCons(s[0], Drop(s[1..], key, gone), key);
      }
    }
  }

  /** Appending an element whose key occurs nowhere in a sequence with
      distinct keys keeps the keys distinct. */
  lemma AppendFreshKeepsDistinct<T, K>(s: seq<T>, x: T, key: T -> K)
    requires DistinctKeys(s, key)
    requires forall y :: y in s ==> key(y) != key(x)
    ensures DistinctKeys(s + [x], key)
  {
    var r := s + [x];
    forall i, j | 0 <= i < j < |r|
      ensures key(r[i]) != key(r[j])
    {
      if j == |s| {
        assert r[i] == s[i];
        assert s[i] in s;
      } else {
        assert r[i] == s[i] && r[j] == s[j];
      }
    }
  }
}

=== FILE: wrappers.dfy ===
/** The optional-value wrapper used wherever the TypeScript code has a nullable or
    optional field (`T | null`, `field?: T`, `Partial<T>`). */
module Wrappers {

  datatype Option<+T> = None | Some(value: T) {

    /** The wrapped value, or `default` when there is none. */
    function GetOr(default: T): T
    {
      match this
      case Some(v) => v
      case None => default
    }
  }
}
